=== FILE: README.md ===
# Data-table widget: a Dafny model

`data.js` renders a REST collection as an HTML table driven by a column configuration,
lets the user delete a row, and offers an "add" modal whose fields are generated from
the same configuration and validated before a POST. This project models the
deterministic core under the DOM and `fetch` plumbing as pure functions over immutable
datatypes, and proves what each step promises:

- `JsValue`: the JavaScript values the widget handles, with truthiness (`Falsy`) and
  string conversion (`ToText`). A number is carried as the text `String(x)` gives for
  it, so `0`, `-0` and `NaN` are falsy and stringify exactly without floating point.
  A record is a `map<string, Value>`; a missing key reads as `undefined`.
- `Decimal`: `String(n)` for integers and the parser that reads it back.
- `Normalize`: `fetchData` — a list or key→object payload becomes ordered records
  carrying an `id`, following the object-spread order `{ id: …, ...item }`.
- `Table`: `createHeader`, `appendCell` and `fillTableBody` as a table description:
  a header row and body rows of cells, each text or markup.
- `Delete`: the row button's guard on a falsy id and the `apiUrl/id` target.
- `Config`, `Form`: column configuration (`Field(name) | Derived(f)` values,
  `Single | Multi` inputs) and the field list `showAddModal` generates from it.
- `Validation`, `Create`: the submit handler as a fold over the fields, and the POST
  body with the price pre-processing of `createNewItem`.
- `Age`: `getAge`'s month-borrow arithmetic and the English singular/plural rule.
- `Widget`: the `DataTable` instance — rendering, opening and dismissing the modal,
  and the full reload after an accepted create or delete.

Behaviours of the code that the model reproduces as written:

- A list item's own `id` wins even when it is falsy. The spread is written after
  the synthesized id, so an item `{ id: "" }` gets the id `""`, and its row can never
  be deleted (`Normalize.ListIdTruthy`). The synthesized position is used only when
  the item has no `id` key at all.
- Form values are not trimmed: a required field holding only spaces passes.
- When the submit handler runs and a field fails, it only flags the fields. The
  handler shows no message of its own, and the modal stays open. The handler is
  reached this way by the Enter key, which dispatches a synthetic `submit` event. A
  click on the submit button first passes the browser's constraint validation,
  which the model leaves out.
- The modal is dismissed only by a click on its backdrop. There is no Escape key
  handler and no close button.
- `DataTable` empties its container before loading. A failed reload therefore leaves
  a header with an empty body, not the previous rows.
- The header's last cell reads "Дії" and each row's delete button reads "Видалити".
- On an `<input>` field, every descriptor property except `label` and `options` is
  copied onto the element after the defaults are set. So a `name` the descriptor has,
  even a falsy one, replaces the column default. A `<select>` keeps the
  `name || col.value` default. A falsy `type` copied this way reads back as "text",
  the same as the default.
- A column without `input` makes `showAddModal` throw. The modal is then never shown
  (`Form.GenerateFields` returns `MissingInput`).

## Model

| member | source | states |
|---|---|---|
| `Decimal.NatToString` | data.js:37 | `String(n)` of a natural number is canonical decimal text: digits only, non-empty, and it starts with '0' exactly when n is 0 |
| `Decimal.IntToString` | data.js:291 | the text of an integer starts with '-' exactly when it is negative, followed by canonical digits |
| `Decimal.ParseNatToString` | data.js:37 | reading the text of a natural number gives the number back |
| `Decimal.NatToStringOfParse` | data.js:37 | every canonical digit string is the text of the number it denotes (the other direction of the round trip) |
| `Decimal.ParseIntToString` | data.js:291 | reading the text of any integer, negative ones included, gives it back |
| `Decimal.IntToStringInjective` | data.js:291 | distinct integers have distinct texts |
| `JsValue.Falsy` | data.js:86 | a falsy value converts to one of "", "0", "NaN", "false", "null", "undefined"; a string is falsy iff empty; an object never is |
| `JsValue.ToText` | data.js:291 | a string converts to itself, a number to its text; only strings, numbers and objects can convert to "" |
| `JsValue.Or` | data.js:37 | logical or gives one of its operands: `a` when truthy; a falsy result means `a` was falsy and the result is `b` |
| `JsValue.Get` | data.js:86 | reading a present key gives its value; anything but `undefined` comes from a present key |
| `JsValue.PositionText` | data.js:37 | `String(index + 1)` is a non-empty string, hence truthy |
| `JsValue.WithId` | data.js:36-42 | `{ id, ...item }` has the item's keys plus `id`; every item key keeps its value; `id` is the item's own `id` when it has one, else the given id |
| `Normalize.ListRecord` | data.js:37 | a list item's record has its own `id` when it has that key (the fallback after `or` never applies then), else `String(index + 1)`; all other keys unchanged |
| `Normalize.NormalizeList` | data.js:35-38 | one record per item in the same order; each record's id and copied keys as for `ListRecord` at that position |
| `Normalize.NormalizeMap` | data.js:39-43 | one record per entry in entry order; id is the entry key unless the item has its own `id`; other keys unchanged |
| `Normalize.FetchData` | data.js:28-48 | a non-ok response fails with the load error, an undecodable body with the JSON error, a missing or null `data` with the type error; list and map payloads normalize |
| `Normalize.ListIdTruthy` | data.js:37 | a list record's id is truthy iff the item has no `id` key or a truthy one |
| `Normalize.MapIdTruthy` | data.js:41 | a map record's id is truthy iff the item's own `id` is truthy, or it has none and the key is non-empty |
| `Normalize.ListRecordRestoresItem` | data.js:37 | removing `id` from the record of an item without `id` gives the item back |
| `Normalize.ListRecordKeepsIdentifiedItem` | data.js:37 | an item that has an `id` key is its own record, unchanged |
| `Delete.DeleteTarget` | data.js:98-103 | no request exactly when the id is falsy; otherwise the URL is `apiUrl`, then `/`, then the id's text |
| `Delete.TargetIdentifiesRecord` | data.js:302 | under one endpoint, two truthy ids address the same URL iff their texts are equal |
| `Table.Header` | data.js:50-60 | the header is "№", one heading per column title in column order, then "Дії" (length columns + 2) |
| `Table.ColumnCell` | data.js:80-89 | a cell is markup iff its column is derived; a derived cell holds `f(item)`; a field cell holds "" for a falsy value and the value's text otherwise |
| `Table.BuildRow` | data.js:75-106 | a row has columns + 2 cells: its 1-based position as text, the column cells in order, and the delete button for the record's id |
| `Table.FillTableBody` | data.js:72-108 | the body is one row per record in order, built from the configuration and records alone (the old body is discarded); row i is columns + 2 wide and starts with the text of i + 1 |
| `Table.RowsMatchHeader` | data.js:53-78 | every body row is as wide as the header, and its first cell reads back as its 1-based position |
| `Table.FieldCellShowsString` | data.js:86-88 | a string value of a field column is shown verbatim as text, never as markup |
| `Form.DefaultName` | data.js:154 | the column's default field name is its `value`: the field name, or for a derived column the source text standing in for `String(f)` |
| `Form.Describe` | data.js:137-162 | select iff type is "select" with options, and then options exactly as given; otherwise type defaults to "text"; label defaults to the title; required unless explicitly false; name defaulting including the pass-through override |
| `Form.Descriptors` | data.js:132 | a single descriptor becomes a one-element list; an array is used as is; the length is the column's descriptor count |
| `Form.ColumnFields` | data.js:133-173 | one field per descriptor of the column, in descriptor order |
| `Form.GenerateFields` | data.js:131-174 | fails iff some column has no input, naming the first; otherwise the field count is the total descriptor count |
| `Form.FieldAt` | data.js:131-133 | descriptor j of column c yields the field at the column's offset plus j (column order, then descriptor order) |
| `Form.FieldOrigin` | data.js:131-133 | every generated field comes from some descriptor of some column |
| `Form.SingleIsOneElementList` | data.js:132 | a single descriptor generates the same fields as a one-element array holding it |
| `Validation.Controls` | data.js:197 | the submitted controls are the fields in order, each with its name, required flag and current value |
| `Validation.Step` | data.js:197-205 | one control's turn appends its flag; validity survives iff it passes; a failing control leaves the item alone, a passing one adds its name with its value and keeps every other entry |
| `Validation.Validate` | data.js:194-205 | flags exactly the required-and-empty fields; valid iff none; the item holds exactly the names of passing fields, each with the value of the last passing field of that name |
| `Validation.DistinctNamesStoreEveryPassingField` | data.js:203 | with distinct names, every passing field's value is stored under its name |
| `Validation.FailingFieldIsAbsent` | data.js:198-200 | a failing field whose name no passing field shares is not in the item |
| `Create.AsRecord` | data.js:203 | the collected item as an object of string values, same keys |
| `Create.PreparePrice` | data.js:226-229 | same keys; every key but `price` unchanged; a falsy price leaves the item as is; a truthy one becomes the parsed number when that is truthy, and `0` when the parse is falsy (NaN or zero) |
| `Create.Submit` | data.js:191-208 | as the handler runs once the event reaches it: the POST to `apiUrl` happens iff no field fails; flags as in `Validate`; the body is the price-processed item |
| `Create.PostedBodyHoldsEveryField` | data.js:203-237 | with distinct names, a posted body has every field's name, and every non-price value as entered |
| `Age.AgeBetween` | data.js:281-287 | months stay in 0..11 and years * 12 + months equals the month difference |
| `Age.AgeIsDivision` | data.js:281-287 | the age is the floor division of the month difference by 12, with its remainder |
| `Age.JsRem` | data.js:288 | JavaScript's `%` leaves a remainder r with a = q * b + r for some integer q, strictly between -b and b, and with the sign of the dividend; it agrees with the Euclidean remainder on non-negative dividends and negates the magnitude's remainder on negative ones |
| `Age.NegativeNumbersArePlural` | data.js:288 | -9 has Euclidean remainder 1 modulo 10 yet takes the plural word |
| `Age.IsSingular` | data.js:288-290 | the singular rule holds iff the number is non-negative, its remainder by 10 is 1 and by 100 is not 11 |
| `Age.UnitWord` | data.js:288-290 | the unit word is one of the two forms, the singular one exactly when the singular rule holds |
| `Age.AgeText` | data.js:291 | the text splits on spaces into exactly the years' text, its unit word, the months' text, its unit word |
| `Age.SingularByDigits` | data.js:288-290 | the unit word is singular iff the number is non-negative and its decimal text ends in 1 but not in 11 |
| `Age.GetAge` | data.js:278-292 | the age text is exactly the years' text, "year" or "years", the months' text, "month" or "months", separated by single spaces; it reads back as the computed years and months, and has four words whose second is "year" iff the years are singular and whose fourth is "month" iff the months are singular |
| `Age.ReadAgeText` | data.js:291 | the text of any age splits into four words whose first and third parse to its years and months |
| `Widget.DataTable` | data.js:11-26 | the container holds the add button and the table: header from the columns; body empty after a failed load, else one row per loaded record |
| `Widget.ClickAdd` | data.js:117-183 | the modal opens unless a column without input makes building it throw; the table is untouched |
| `Widget.ClickBackdrop` | data.js:185-189 | a backdrop click closes the modal and leaves the table |
| `Widget.ClickDelete` | data.js:97-104 | a falsy id or an unaccepted DELETE leaves the page as it was; an accepted one rebuilds the table from the reload |
| `Widget.SubmitForm` | data.js:191-219 | with the modal still open when the reply settles: an invalid form or a refused POST leaves the page as it was; an accepted create closes the modal and rebuilds the table |
| `Widget.RerenderReplacesPage` | data.js:11-13 | after an accepted delete the container is the fresh rendering whatever it held before |
| `Widget.SynthesizedIdIsDeleteTarget` | data.js:301-302 | the delete button of a list item without `id` targets `apiUrl/` followed by its 1-based position |
| `Widget.MapKeyIsDeleteTarget` | data.js:301-302 | the delete button of a map entry without `id` targets `apiUrl/key`, or sends nothing when the key is empty |
| `Widget.OneRowScenario` | data.js:50-107 | one text column over `{ name: "Ann" }` renders "№, Name, Дії" over "1, Ann, Видалити" deleting `apiUrl/1` |
| `Widget.PriceColumnFields` | data.js:142-162 | a price column with a number input and an optional currency select yields those two fields |
| `Widget.PriceCurrencyScenario` | data.js:194-237 | filling both posts one body with both names, the price parsed to a number |

## Left out

- Network I/O. `fetch`, `response.ok`, `.json()`, `.text()` and the promise chains are
  abstract: the GET outcome is a `Response`, the POST and DELETE outcomes are a `Reply`.
- Concurrent requests. Overlapping reloads (the last one to settle wins) are not modelled.
- Widget.SubmitForm: does not model a backdrop click while the create request is
  pending. The model takes the POST and its reply as one step on an open modal. In
  the code, a modal already removed by the backdrop makes the accepted reply's
  `removeChild` throw. The error is then logged, and the table is not rebuilt even
  though the record was created.
- The DOM. Elements, `classList`, `insertBefore`, the key event listener, `alert`,
  `setTimeout` and `console.error` are not modelled. Only the data they produce is.
- The browser's constraint validation (required, type mismatch, bad number input). It
  gates the submit button before the handler runs. `Create.Submit` and
  `Widget.SubmitForm` model the handler as the Enter key reaches it. For example, a
  non-required `url` field holding "abc" is posted by the model, but a button click
  would block it.
- The DOM's normalisation of unknown `type` keywords to "text". A truthy `type` is kept
  as written.
- Descriptor properties other than `type`, `name`, `label`, `required` and `options`.
  They are copied onto the input element as-is, for example a `value` that pre-fills
  the field. Field values at submit time are free inputs of the model.
- A `<select>`'s value is not constrained to its options.
- `parseFloat` is a parameter that returns the text of the number it reads. Its
  decimal parsing is not modelled.
- `new Date`, the current time and date-string parsing in `getAge`. The year and
  0-based month of both dates are parameters, so invalid dates (NaN) are not covered.
- `getColorLabel`. It depends on the browser's style serialisation.
- The sample configurations, the startup calls and the commented-out test helper.
- Object key order. Map entries come in `Object.entries` order, taken as given. The
  engine's ordering of integer-like keys is not modelled. Neither is the key order
  of the JSON body sent by the POST.
- Payload items that are not objects. A `null` item throws. A string item spreads its
  characters under the keys "0", "1", and so on. A number or boolean item spreads nothing.
- A `data` member that is a string or a number.
- Properties explicitly set to `undefined`. `Undefined` stands for an absent key.
- Stacked modals. Clicking "Додати" again while a modal is open appends a second one.
  The model keeps one open/closed flag.
- Derived column functions are arbitrary total functions of the record. An exception
  thrown inside one is not modelled.

=== FILE: age.dfy ===
/**
  `getAge`: the whole years and months between a birth month and the current month,
  written with English singular or plural unit words. The dates come in as year and
  month numbers (months 0..11, as `Date.getMonth` gives them).
*/
module Age {
  import opened Results
  import Decimal

  /**
    JavaScript's remainder for a positive divisor: it truncates, so a negative dividend
    has the negated remainder of its magnitude, where Dafny's `%` would give a non-negative one.
  */
  function JsRem(a: int, b: int): (r: int)
    requires b > 0
    ensures -b < r < b
    ensures exists q: int :: a == q * b + r
    ensures a >= 0 ==> 0 <= r
    ensures a < 0 ==> r <= 0
    ensures a >= 0 ==> r == a % b
    ensures a < 0 ==> -r == (-a) % b
  {
    var r := if a >= 0 then a % b else -((-a) % b);
    var q := if a >= 0 then a / b else -((-a) / b);
    assert a == q * b + r;
    r
  }

  datatype Age = Age(years: int, months: int)

  /** The year difference, with a year borrowed when the current month comes before the birth month. */
  function AgeBetween(birthYear: int, birthMonth: int, year: int, month: int): (a: Age)
    requires 0 <= birthMonth < 12 && 0 <= month < 12
    ensures 0 <= a.months < 12
    ensures a.years * 12 + a.months == (year * 12 + month) - (birthYear * 12 + birthMonth)
  {
    var years := year - birthYear;
    var months := month - birthMonth;
    if months < 0 then Age(years - 1, months + 12) else Age(years, months)
  }

  lemma DivModUnique(n: int, q: int, r: int)
    requires 0 <= r < 12 && n == q * 12 + r
    ensures q == n / 12 && r == n % 12
  {
  }

  /** The age is the floor division of the month difference by twelve, with its remainder. */
  lemma AgeIsDivision(birthYear: int, birthMonth: int, year: int, month: int)
    requires 0 <= birthMonth < 12 && 0 <= month < 12
    ensures var d := (year * 12 + month) - (birthYear * 12 + birthMonth);
      AgeBetween(birthYear, birthMonth, year, month) == Age(d / 12, d % 12)
  {
    var a := AgeBetween(birthYear, birthMonth, year, month);
    DivModUnique((year * 12 + month) - (birthYear * 12 + birthMonth), a.years, a.months);
  }

  /** The singular rule: the last digit is 1 and the last two are not 11, with JavaScript's remainder. */
  predicate IsSingular(n: int)
    ensures IsSingular(n) <==> n >= 0 && n % 10 == 1 && n % 100 != 11
  {
    JsRem(n, 10) == 1 && JsRem(n, 100) != 11
  }

  /** -9 ends in the digit 1 under Dafny's `%`, but JavaScript's remainder is -9: "years". */
  lemma NegativeNumbersArePlural()
    ensures (-9) % 10 == 1 && !IsSingular(-9)
  {
  }

  /** The unit word for `n`: the singular form exactly when the singular rule holds. */
  function UnitWord(n: int, singular: string, plural: string): (w: string)
    ensures w == singular || w == plural
    ensures singular != plural ==> (w == singular <==> IsSingular(n))
  {
    if IsSingular(n) then singular else plural
  }

  /** The English reading of the rule: the numeral ends in the digit 1 but not in 11. */
  predicate EndsInOneNotEleven(s: string) {
    |s| >= 1 && s[|s| - 1] == '1' && !(|s| >= 2 && s[|s| - 2] == '1')
  }

  lemma LastDigit(n: nat)
    ensures var s := Decimal.NatToString(n); s[|s| - 1] == Decimal.DigitChar(n % 10)
  {
  }

  lemma ModHundred(n: nat)
    ensures n % 100 == 10 * ((n / 10) % 10) + n % 10
  {
    var a := n / 10;
    assert n == 10 * a + n % 10;
    assert a == 10 * (a / 10) + a % 10;
    assert n == 100 * (a / 10) + (10 * (a % 10) + n % 10);
  }

  /** The unit word is singular exactly when the number's decimal text ends in 1 but not in 11. */
  lemma SingularByDigits(n: int)
    ensures IsSingular(n) <==> n >= 0 && EndsInOneNotEleven(Decimal.IntToString(n))
  {
    if n >= 0 {
      var s := Decimal.NatToString(n);
      LastDigit(n);
      ModHundred(n);
      if n >= 10 {
        LastDigit(n / 10);
        assert s == Decimal.NatToString(n / 10) + [Decimal.DigitChar(n % 10)];
        var t := Decimal.NatToString(n / 10);
        assert s[|s| - 2] == t[|t| - 1];
      }
    }
  }

  /** The years, their unit word, the months and their unit word, separated by single spaces. */
  function AgeText(a: Age): (text: string)
    ensures Words(text) == [Decimal.IntToString(a.years), UnitWord(a.years, "year", "years"),
                            Decimal.IntToString(a.months), UnitWord(a.months, "month", "months")]
  {
    var y, m := Decimal.IntToString(a.years), Decimal.IntToString(a.months);
    var wy, wm := UnitWord(a.years, "year", "years"), UnitWord(a.months, "month", "months");
    NumeralHasNoSpace(a.years);
    NumeralHasNoSpace(a.months);
    WordsOfFour(y, wy, m, wm);
    Spaced(y, Spaced(wy, Spaced(m, wm)))
  }

  /** Two words with one space between them. */
  function Spaced(a: string, b: string): string {
    a + " " + b
  }

  /** `getAge` for a birth date and the current date, each given as a year and a 0-based month. */
  function GetAge(birthYear: int, birthMonth: int, year: int, month: int): (text: string)
    requires 0 <= birthMonth < 12 && 0 <= month < 12
    ensures ReadAge(text) == Some(AgeBetween(birthYear, birthMonth, year, month))
    ensures var a := AgeBetween(birthYear, birthMonth, year, month);
      Words(text) == [Decimal.IntToString(a.years), UnitWord(a.years, "year", "years"),
                      Decimal.IntToString(a.months), UnitWord(a.months, "month", "months")]
    ensures var a := AgeBetween(birthYear, birthMonth, year, month);
      |Words(text)| == 4
      && (Words(text)[1] == "year" <==> IsSingular(a.years))
      && (Words(text)[3] == "month" <==> IsSingular(a.months))
  {
    var a := AgeBetween(birthYear, birthMonth, year, month);
    ReadAgeText(a);
    AgeText(a)
  }

  /** The index of the first space in `s`, or `|s|` when there is none. */
  function FirstSpace(s: string): (i: nat)
    ensures i <= |s|
    ensures forall j :: 0 <= j < i ==> s[j] != ' '
    ensures i < |s| ==> s[i] == ' '
    decreases |s|
  {
    if |s| == 0 || s[0] == ' ' then 0 else 1 + FirstSpace(s[1..])
  }

  /** The pieces of `s` between single spaces, as splitting on " " gives them. */
  function Words(s: string): (ws: seq<string>)
    ensures |ws| >= 1
    decreases |s|
  {
    var i := FirstSpace(s);
    if i == |s| then [s] else [s[..i]] + Words(s[i + 1..])
  }

  lemma WordsCons(a: string, rest: string)
    requires forall j :: 0 <= j < |a| ==> a[j] != ' '
    ensures Words(Spaced(a, rest)) == [a] + Words(rest)
  {
    var s := Spaced(a, rest);
    assert s[|a|] == ' ';
    assert FirstSpace(s) == |a|;
    assert s[..|a|] == a && s[|a| + 1..] == rest;
  }

  lemma WordsSingle(a: string)
    requires forall j :: 0 <= j < |a| ==> a[j] != ' '
    ensures Words(a) == [a]
  {
  }

  /** Reads an age back from its text: four words, the first and third of them integers. */
  function ReadAge(text: string): Option<Age> {
    var ws := Words(text);
    if |ws| == 4 && Decimal.IsIntText(ws[0]) && Decimal.IsIntText(ws[2]) then
      Some(Age(Decimal.ParseInt(ws[0]), Decimal.ParseInt(ws[2])))
    else None
  }

  lemma NumeralHasNoSpace(n: int)
    ensures var s := Decimal.IntToString(n); forall j :: 0 <= j < |s| ==> s[j] != ' '
  {
  }

  lemma ReadAgeOfWords(text: string, y: string, wy: string, m: string, wm: string)
    requires Words(text) == [y, wy, m, wm]
    requires Decimal.IsIntText(y) && Decimal.IsIntText(m)
    ensures ReadAge(text) == Some(Age(Decimal.ParseInt(y), Decimal.ParseInt(m)))
  {
  }

  lemma WordsOfFour(y: string, wy: string, m: string, wm: string)
    requires forall j :: 0 <= j < |y| ==> y[j] != ' '
    requires forall j :: 0 <= j < |wy| ==> wy[j] != ' '
    requires forall j :: 0 <= j < |m| ==> m[j] != ' '
    requires forall j :: 0 <= j < |wm| ==> wm[j] != ' '
    ensures Words(Spaced(y, Spaced(wy, Spaced(m, wm)))) == [y, wy, m, wm]
  {
    WordsSingle(wm);
    WordsCons(m, wm);
    WordsCons(wy, Spaced(m, wm));
    WordsCons(y, Spaced(wy, Spaced(m, wm)));
  }

  /** The text of an age reads back as that age. */
  lemma ReadAgeText(a: Age)
    ensures ReadAge(AgeText(a)) == Some(a)
  {
    var y, m := Decimal.IntToString(a.years), Decimal.IntToString(a.months);
    var wy, wm := UnitWord(a.years, "year", "years"), UnitWord(a.months, "month", "months");
    Decimal.ParseIntToString(a.years);
    Decimal.ParseIntToString(a.months);
    ReadAgeOfWords(AgeText(a), y, wy, m, wm);
  }
}

=== FILE: config.dfy ===
/**
  The declarative configuration of one table instance: where it mounts, which REST
  collection it shows, and how each column displays a record and asks for input.
*/
module Config {
  import opened Results
  import opened JsValue

  /**
    A column's `value`: a property name to project (`value: "name"`), or a function of
    the record whose result is inserted as markup. `source` is the function's source
    text, which is what `String(f)` yields when the function is used as a field name.
  */
  datatype ColumnValue =
    | Field(name: string)
    | Derived(render: Record -> string, source: string)

  /**
    One descriptor of a column's `input`. Each property is the value written in the
    configuration; `Undefined` stands for a property the descriptor does not have.
    Other descriptor properties are not modelled.
  */
  datatype InputDef = InputDef(
    inputType: Value,
    name: Value,
    labelValue: Value,  // the `label` property
    required: Value,
    options: Option<seq<string>>)

  /** A column's `input`: one descriptor, an array of them, or none at all. */
  datatype InputSpec =
    | Single(def: InputDef)
    | Multi(defs: seq<InputDef>)
    | NoInput

  datatype Column = Column(title: string, value: ColumnValue, input: InputSpec)

  datatype TableConfig = TableConfig(parent: string, apiUrl: string, columns: seq<Column>)
}

=== FILE: create.dfy ===
/** `createNewItem`: the POST body built from the collected item. */
module Create {
  import opened JsValue
  import opened Validation

  /** The collected item as a JSON object: every form value is a string. */
  function AsRecord(item: map<string, string>): (r: Record)
    ensures r.Keys == item.Keys
    ensures forall k :: k in item ==> r[k] == Str(item[k])
  {
    map k | k in item :: Str(item[k])
  }

  /**
    The price pre-processing of `createNewItem`: a copy of the item whose truthy price
    is replaced by the number it parses to, or by 0 when the parse gives a falsy number.
    `parseFloat` is a parameter returning the text of the number it reads.
  */
  function PreparePrice(item: Record, parseFloat: string -> string): (r: Record)
    ensures r.Keys == item.Keys
    ensures forall k :: k in item && k != "price" ==> r[k] == item[k]
    ensures Falsy(Get(item, "price")) ==> r == item
    ensures !Falsy(Get(item, "price")) && Falsy(Num(parseFloat(ToText(item["price"])))) ==>
      r["price"] == Num("0")
    ensures !Falsy(Get(item, "price")) && !Falsy(Num(parseFloat(ToText(item["price"])))) ==>
      r["price"] == Num(parseFloat(ToText(item["price"])))
  {
    var price := Get(item, "price");
    if Falsy(price) then item
    else item["price" := Or(Num(parseFloat(ToText(price))), Num("0"))]
  }

  /** What a submit does: block the request and flag the fields, or post the processed item. */
  datatype SubmitOutcome =
    | Blocked(errors: seq<bool>)
    | Posted(errors: seq<bool>, url: string, body: Record)

  /** The form's submit handler: the create request is made only when no field fails. */
  function Submit(apiUrl: string, controls: seq<Control>, parseFloat: string -> string): (o: SubmitOutcome)
    ensures |o.errors| == |controls|
    ensures forall k :: 0 <= k < |controls| ==> (o.errors[k] <==> Fails(controls[k]))
    ensures o.Posted? <==> forall k :: 0 <= k < |controls| ==> !Fails(controls[k])
    ensures o.Posted? ==> o.url == apiUrl
    ensures o.Posted? ==> o.body == PreparePrice(AsRecord(Validate(controls).item), parseFloat)
  {
    var v := Validate(controls);
    if v.isValid then Posted(v.errors, apiUrl, PreparePrice(AsRecord(v.item), parseFloat))
    else Blocked(v.errors)
  }

  /** A posted body holds exactly the names of the form's fields, every value but the price unchanged. */
  lemma PostedBodyHoldsEveryField(apiUrl: string, controls: seq<Control>, parseFloat: string -> string)
    requires forall a, b :: 0 <= a < b < |controls| ==> controls[a].name != controls[b].name
    requires Submit(apiUrl, controls, parseFloat).Posted?
    ensures forall k :: 0 <= k < |controls| ==> controls[k].name in Submit(apiUrl, controls, parseFloat).body
    ensures forall k :: 0 <= k < |controls| && controls[k].name != "price" ==>
      Submit(apiUrl, controls, parseFloat).body[controls[k].name] == Str(controls[k].value)
  {
    DistinctNamesStoreEveryPassingField(controls);
  }
}

=== FILE: decimal.dfy ===
/**
  Decimal text of integers, as JavaScript's `String(n)` writes an integral number
  (below 10^21 in magnitude), and the parser that reads such text back.
*/
module Decimal {

  predicate IsDigit(c: char) {
    '0' <= c <= '9'
  }

  predicate AllDigits(s: string) {
    forall i :: 0 <= i < |s| ==> IsDigit(s[i])
  }

  /** The text `String(n)` gives: digits only, and a leading zero only in "0" itself. */
  predicate Canonical(s: string) {
    |s| >= 1 && AllDigits(s) && (s[0] == '0' ==> |s| == 1)
  }

  function DigitValue(c: char): (d: nat)
    requires IsDigit(c)
    ensures d < 10
  {
    c as int - '0' as int
  }

  function DigitChar(d: nat): (c: char)
    requires d < 10
    ensures IsDigit(c)
    ensures DigitValue(c) == d
  {
    (48 + d) as char
  }

  lemma DigitCharOfValue(c: char)
    requires IsDigit(c)
    ensures DigitChar(DigitValue(c)) == c
  {
  }

  /** `String(n)` for a non-negative integer. */
  function NatToString(n: nat): (s: string)
    ensures Canonical(s)
    ensures s[0] == '0' <==> n == 0
    decreases n
  {
    if n < 10 then [DigitChar(n)] else NatToString(n / 10) + [DigitChar(n % 10)]
  }

  /** `String(n)` for any integer: a minus sign in front of the magnitude when negative. */
  function IntToString(n: int): (s: string)
    ensures |s| >= 1
    ensures s[0] == '-' <==> n < 0
    ensures n < 0 ==> Canonical(s[1..])
    ensures n >= 0 ==> Canonical(s)
    ensures IsIntText(s)
  {
    if n < 0 then "-" + NatToString(-n) else NatToString(n)
  }

  /** The number a string of decimal digits denotes. */
  function ParseNat(s: string): nat
    requires AllDigits(s)
    decreases |s|
  {
    if |s| == 0 then 0 else 10 * ParseNat(s[..|s| - 1]) + DigitValue(s[|s| - 1])
  }

  /** An optionally signed string of decimal digits. */
  predicate IsIntText(s: string) {
    |s| >= 1 && (if s[0] == '-' then AllDigits(s[1..]) else AllDigits(s))
  }

  /** The integer an optionally signed string of decimal digits denotes. */
  function ParseInt(s: string): int
    requires IsIntText(s)
  {
    if s[0] == '-' then -(ParseNat(s[1..]) as int) else ParseNat(s)
  }

  /** Reading the text of a natural number gives the number back. */
  lemma {:induction false} ParseNatToString(n: nat)
    ensures ParseNat(NatToString(n)) == n
    decreases n
  {
    if n >= 10 {
      var s := NatToString(n);
      assert s[..|s| - 1] == NatToString(n / 10);
      ParseNatToString(n / 10);
    }
  }

  /** Every canonical digit string is the text of the number it denotes. */
  lemma {:induction false} NatToStringOfParse(s: string)
    requires Canonical(s)
    ensures NatToString(ParseNat(s)) == s
    decreases |s|
  {
    var last := s[|s| - 1];
    DigitCharOfValue(last);
    if |s| > 1 {
      var p := s[..|s| - 1];
      assert p[0] == s[0];
      NatToStringOfParse(p);
      var v := ParseNat(s);
      assert ParseNat(p) != 0;
      assert v / 10 == ParseNat(p) && v % 10 == DigitValue(last);
      assert s == p + [last];
    }
  }

  /** Reading the text of an integer gives the integer back. */
  lemma ParseIntToString(n: int)
    ensures ParseInt(IntToString(n)) == n
  {
    var s := IntToString(n);
    if n < 0 {
      assert s[1..] == NatToString(-n);
      ParseNatToString(-n);
    } else {
      ParseNatToString(n);
    }
  }

  /** Two integers with the same text are equal. */
  lemma IntToStringInjective(a: int, b: int)
    requires IntToString(a) == IntToString(b)
    ensures a == b
  {
    ParseIntToString(a);
    ParseIntToString(b);
  }
}

=== FILE: delete.dfy ===
/** The delete action of a row: the guard on the record's id and the request target. */
module Delete {
  import opened JsValue

  datatype DeleteRequest =
    | NoRequest           // the id is falsy: the error is logged and nothing is sent
    | DeleteAt(url: string)

  /** The click handler's decision for a record whose `id` is `id`: when truthy, the endpoint, a slash and the id's text. */
  function DeleteTarget(apiUrl: string, id: Value): (r: DeleteRequest)
    ensures r.NoRequest? <==> Falsy(id)
    ensures r.DeleteAt? ==> |r.url| == |apiUrl| + 1 + |ToText(id)|
    ensures r.DeleteAt? ==> r.url[..|apiUrl|] == apiUrl && r.url[|apiUrl|] == '/'
    ensures r.DeleteAt? ==> r.url[|apiUrl| + 1..] == ToText(id)
  {
    if Falsy(id) then NoRequest else DeleteAt(apiUrl + "/" + ToText(id))
  }

  /** Under one endpoint, two ids address the same URL only when their texts are equal. */
  lemma TargetIdentifiesRecord(apiUrl: string, a: Value, b: Value)
    requires !Falsy(a) && !Falsy(b)
    ensures DeleteTarget(apiUrl, a) == DeleteTarget(apiUrl, b) <==> ToText(a) == ToText(b)
  {
    var ra, rb := DeleteTarget(apiUrl, a), DeleteTarget(apiUrl, b);
    if ra == rb {
      assert ToText(a) == ra.url[|apiUrl| + 1..] == rb.url[|apiUrl| + 1..] == ToText(b);
    }
  }
}

=== FILE: form.dfy ===
/**
  The add form of `showAddModal`: each column's input descriptors become labelled
  fields, in column order and then descriptor order.
*/
module Form {
  import opened Results
  import opened JsValue
  import opened Config

  datatype FieldKind =
    | Select(options: seq<string>)   // a <select> with one <option> per entry, in order
    | Input(inputType: string)       // an <input> with this `type`

  /** One generated field: its kind, `name`, label text and `required` flag. */
  datatype FormField = FormField(kind: FieldKind, name: string, caption: string, required: bool)

  /** The column, by 0-based position, whose missing `input` makes the form fail to build. */
  datatype FormError = MissingInput(column: nat)

  /** The name a field falls back to: the column's `value` as a string, which for a function is its source text. */
  function DefaultName(column: Column): (name: string)
    ensures column.value.Field? ==> name == column.value.name
    ensures column.value.Derived? ==> name == column.value.source
  {
    match column.value
    case Field(name) => name
    case Derived(_, source) => source
  }

  /**
    The field one descriptor yields. A <select> is built only for type "select" with
    options. On an <input> every descriptor property except `label` and `options` is
    then copied over the element, so a `name` the descriptor has, even a falsy one,
    replaces the column default; a falsy `type` copied that way reads back as "text".
  */
  function Describe(column: Column, d: InputDef): (f: FormField)
    ensures f.kind.Select? <==> d.inputType == Str("select") && d.options.Some?
    ensures f.kind.Select? ==> f.kind.options == d.options.value
    ensures f.kind.Input? && Falsy(d.inputType) ==> f.kind.inputType == "text"
    ensures f.kind.Input? && !Falsy(d.inputType) ==> f.kind.inputType == ToText(d.inputType)
    ensures Falsy(d.labelValue) ==> f.caption == column.title
    ensures !Falsy(d.labelValue) ==> f.caption == ToText(d.labelValue)
    ensures f.required <==> d.required != Bool(false)
    ensures d.name == Undefined ==> f.name == DefaultName(column)
    ensures !Falsy(d.name) ==> f.name == ToText(d.name)
    ensures Falsy(d.name) && d.name != Undefined ==>
      f.name == if f.kind.Select? then DefaultName(column) else ToText(d.name)
  {
    var caption := ToText(Or(d.labelValue, Str(column.title)));
    var required := d.required != Bool(false);
    if d.inputType == Str("select") && d.options.Some? then
      FormField(Select(d.options.value), ToText(Or(d.name, Str(DefaultName(column)))), caption, required)
    else
      var inputType := ToText(Or(d.inputType, Str("text")));
      var name := if d.name != Undefined then ToText(d.name) else ToText(Or(d.name, Str(DefaultName(column))));
      FormField(Input(inputType), name, caption, required)
  }

  /** A column's descriptors as a list: an array is taken as it is, a single descriptor is wrapped. */
  function Descriptors(spec: InputSpec): (ds: seq<InputDef>)
    requires !spec.NoInput?
    ensures |ds| == DescriptorCount(spec)
    ensures spec.Single? ==> ds == [spec.def]
    ensures spec.Multi? ==> ds == spec.defs
  {
    match spec
    case Single(d) => [d]
    case Multi(ds) => ds
  }

  /** How many fields a column contributes. */
  function DescriptorCount(spec: InputSpec): nat {
    match spec
    case Single(_) => 1
    case Multi(ds) => |ds|
    case NoInput => 0
  }

  function FieldCount(columns: seq<Column>): nat {
    if |columns| == 0 then 0 else DescriptorCount(columns[0].input) + FieldCount(columns[1..])
  }

  /** Where the fields of column `c` start: after those of the columns before it. */
  function Offset(columns: seq<Column>, c: nat): nat
    requires c <= |columns|
  {
    FieldCount(columns[..c])
  }

  /** The fields of one column, in descriptor order. */
  function ColumnFields(column: Column): (fs: seq<FormField>)
    requires !column.input.NoInput?
    ensures |fs| == DescriptorCount(column.input)
    ensures forall j :: 0 <= j < |fs| ==> fs[j] == Describe(column, Descriptors(column.input)[j])
  {
    var ds := Descriptors(column.input);
    seq(|ds|, j requires 0 <= j < |ds| => Describe(column, ds[j]))
  }

  /**
    The form's fields. A column without `input` makes the descriptor `undefined`, and
    reading its `label` throws before the modal is shown: the first such column is reported.
  */
  function GenerateFields(columns: seq<Column>): (r: Result<seq<FormField>, FormError>)
    ensures r.Err? <==> exists c :: 0 <= c < |columns| && columns[c].input.NoInput?
    ensures r.Err? ==> r.error.column < |columns| && columns[r.error.column].input.NoInput?
    ensures r.Err? ==> forall c :: 0 <= c < r.error.column ==> !columns[c].input.NoInput?
    ensures r.Ok? ==> |r.value| == FieldCount(columns)
    decreases |columns|
  {
    if |columns| == 0 then Ok([])
    else if columns[0].input.NoInput? then Err(MissingInput(0))
    else
      match GenerateFields(columns[1..])
      case Err(e) => Err(MissingInput(e.column + 1))
      case Ok(rest) => Ok(ColumnFields(columns[0]) + rest)
  }

  lemma OffsetStep(columns: seq<Column>, c: nat)
    requires 0 < c <= |columns|
    ensures Offset(columns, c) == DescriptorCount(columns[0].input) + Offset(columns[1..], c - 1)
  {
    assert columns[..c][1..] == columns[1..][..c - 1];
  }

  /** Descriptor `j` of column `c` yields the field at `Offset(columns, c) + j`. */
  lemma {:induction false} FieldAt(columns: seq<Column>, c: nat, j: nat)
    requires GenerateFields(columns).Ok?
    requires c < |columns|
    requires j < DescriptorCount(columns[c].input)
    ensures Offset(columns, c) + j < |GenerateFields(columns).value|
    ensures GenerateFields(columns).value[Offset(columns, c) + j]
         == Describe(columns[c], Descriptors(columns[c].input)[j])
    decreases c
  {
    var fields := GenerateFields(columns).value;
    var rest := GenerateFields(columns[1..]);
    assert !columns[0].input.NoInput?;
    assert rest.Ok? && fields == ColumnFields(columns[0]) + rest.value;
    if c == 0 {
      assert columns[..0] == [];
    } else {
      OffsetStep(columns, c);
      FieldAt(columns[1..], c - 1, j);
    }
  }

  /** Field `k` is descriptor `j` of column `c`. */
  predicate Origin(columns: seq<Column>, k: nat, c: nat, j: nat) {
    c < |columns| && j < DescriptorCount(columns[c].input) && k == Offset(columns, c) + j
  }

  /** Every field comes from some descriptor of some column. */
  lemma {:induction false} FieldOrigin(columns: seq<Column>, k: nat)
    requires GenerateFields(columns).Ok?
    requires k < |GenerateFields(columns).value|
    ensures exists c: nat, j: nat :: Origin(columns, k, c, j)
    decreases |columns|
  {
    var fields := GenerateFields(columns).value;
    assert |columns| > 0 && !columns[0].input.NoInput?;
    var rest := GenerateFields(columns[1..]);
    assert rest.Ok? && fields == ColumnFields(columns[0]) + rest.value;
    var head := DescriptorCount(columns[0].input);
    if k < head {
      assert columns[..0] == [];
      assert Origin(columns, k, 0, k);
    } else {
      FieldOrigin(columns[1..], k - head);
      var c: nat, j: nat :| Origin(columns[1..], k - head, c, j);
      OffsetStep(columns, c + 1);
      assert Origin(columns, k, c + 1, j);
    }
  }

  /** A single descriptor is treated as a one-element list. */
  lemma SingleIsOneElementList(column: Column, d: InputDef)
    requires column.input == Single(d)
    ensures GenerateFields([column]) == GenerateFields([column.(input := Multi([d]))])
  {
    var other := column.(input := Multi([d]));
    assert [column][1..] == [] && [other][1..] == [];
    assert ColumnFields(column) == ColumnFields(other);
  }
}

=== FILE: js_value.dfy ===
/**
  The JavaScript values the widget reads from decoded JSON and from its configuration,
  with the two operations the widget applies to them: truthiness (`||`, `if (x)`) and
  string conversion (`String(x)`, template literals, `textContent`).
*/
module JsValue {
  import Decimal

  /**
    A number is carried as the text `String(x)` gives for it: both zeros read "0" and
    NaN reads "NaN", so truthiness and string conversion are exact without floating point.
    An object or array is carried as its string conversion; it is always truthy.
  */
  datatype Value =
    | Str(s: string)
    | Num(text: string)
    | Bool(b: bool)
    | Null
    | Undefined
    | Obj(text: string)

  /** JavaScript falsiness: "", 0, -0, NaN, false, null and undefined. */
  predicate Falsy(v: Value)
    ensures Falsy(v) ==> ToText(v) in {"", "0", "NaN", "false", "null", "undefined"}
    ensures v.Str? ==> (Falsy(v) <==> v.s == "")
    ensures v.Obj? ==> !Falsy(v)
  {
    match v
    case Str(s) => s == ""
    case Num(t) => t == "0" || t == "NaN"
    case Bool(b) => !b
    case Null => true
    case Undefined => true
    case Obj(_) => false
  }

  /** The string conversion of a value. */
  function ToText(v: Value): (t: string)
    ensures v.Str? ==> t == v.s
    ensures v.Num? ==> t == v.text
    ensures t == "" ==> v.Str? || v.Num? || v.Obj?
    ensures v.Bool? || v.Null? || v.Undefined? ==> t in {"true", "false", "null", "undefined"}
  {
    match v
    case Str(s) => s
    case Num(t) => t
    case Bool(b) => if b then "true" else "false"
    case Null => "null"
    case Undefined => "undefined"
    case Obj(t) => t
  }

  /** Logical or on values: the first operand when truthy, else the second. */
  function Or(a: Value, b: Value): (r: Value)
    ensures r == a || r == b
    ensures !Falsy(a) ==> r == a
    ensures Falsy(r) ==> Falsy(a) && r == b
  {
    if Falsy(a) then b else a
  }

  /** A decoded JSON object: property name to value. */
  type Record = map<string, Value>

  /** `r[key]`: a key the object does not have reads as `undefined`. */
  function Get(r: Record, key: string): (v: Value)
    ensures key in r ==> v == r[key]
    ensures v != Undefined ==> key in r
  {
    if key in r then r[key] else Undefined
  }

  /** `String(n)` for a row position, as a string value. */
  function PositionText(n: nat): (v: Value)
    ensures v.Str? && !Falsy(v)
  {
    Str(Decimal.NatToString(n))
  }

  /**
    The object literal `{ id: id, ...item }`. The spread comes after `id`, so an own `id`
    property of `item` replaces the one written first, whatever its value.
  */
  function WithId(id: Value, item: Record): (r: Record)
    ensures r.Keys == item.Keys + {"id"}
    ensures r["id"] == if "id" in item then item["id"] else id
    ensures forall k :: k in item ==> r[k] == item[k]
  {
    map["id" := id] + item
  }
}

=== FILE: normalize.dfy ===
/**
  The load step of `fetchData`: a GET response becomes an ordered list of records,
  each carrying an `id`.
*/
module Normalize {
  import opened Results
  import opened JsValue

  /** The `data` member of a decoded response body. */
  datatype Payload =
    | ListData(items: seq<Record>)
    | MapData(entries: seq<(string, Record)>)  // in `Object.entries` order
    | NoData                                   // `data` is missing or null

  /** The settled outcome of the GET request, with the network left abstract. */
  datatype Response =
    | NotOk               // `response.ok` is false
    | Undecodable         // `response.json()` rejects
    | Decoded(data: Payload)

  datatype FetchError =
    | LoadFailed          // "Error load data"
    | BadJson
    | NotAnObject         // `Object.entries` of null or undefined throws

  /** The record of the list item at 0-based `index`: the item with an `id` added, its 1-based position as text when the item has no `id` key; an own `id`, even a falsy one, wins. */
  function ListRecord(item: Record, index: nat): (r: Record)
    ensures r.Keys == item.Keys + {"id"}
    ensures r["id"] == if "id" in item then item["id"] else PositionText(index + 1)
    ensures forall k :: k in item ==> r[k] == item[k]
  {
    WithId(Or(Get(item, "id"), PositionText(index + 1)), item)
  }

  /** A list payload, record by record in list order. */
  function NormalizeList(items: seq<Record>): (rs: seq<Record>)
    ensures |rs| == |items|
    ensures forall i :: 0 <= i < |items| ==>
      rs[i].Keys == items[i].Keys + {"id"}
      && rs[i]["id"] == (if "id" in items[i] then items[i]["id"] else PositionText(i + 1))
      && (forall k :: k in items[i] ==> rs[i][k] == items[i][k])
  {
    seq(|items|, i requires 0 <= i < |items| => ListRecord(items[i], i))
  }

  /** A map payload, one record per entry in entry order, its key added as `id`. */
  function NormalizeMap(entries: seq<(string, Record)>): (rs: seq<Record>)
    ensures |rs| == |entries|
    ensures forall i :: 0 <= i < |entries| ==>
      rs[i].Keys == entries[i].1.Keys + {"id"}
      && rs[i]["id"] == (if "id" in entries[i].1 then entries[i].1["id"] else Str(entries[i].0))
      && (forall k :: k in entries[i].1 ==> rs[i][k] == entries[i].1[k])
  {
    seq(|entries|, i requires 0 <= i < |entries| => WithId(Str(entries[i].0), entries[i].1))
  }

  /** `fetchData` once its request has settled. */
  function FetchData(response: Response): (r: Result<seq<Record>, FetchError>)
    ensures r.Ok? <==> response.Decoded? && !response.data.NoData?
    ensures response.NotOk? ==> r == Err(LoadFailed)
    ensures response.Undecodable? ==> r == Err(BadJson)
    ensures response.Decoded? && response.data.NoData? ==> r == Err(NotAnObject)
    ensures response.Decoded? && response.data.ListData? ==> r == Ok(NormalizeList(response.data.items))
    ensures response.Decoded? && response.data.MapData? ==> r == Ok(NormalizeMap(response.data.entries))
  {
    match response
    case NotOk => Err(LoadFailed)
    case Undecodable => Err(BadJson)
    case Decoded(data) =>
      match data
      case ListData(items) => Ok(NormalizeList(items))
      case MapData(entries) => Ok(NormalizeMap(entries))
      case NoData => Err(NotAnObject)
  }

  /**
    A list record's id is truthy exactly when the item has no `id` of its own or a
    truthy one: a falsy own `id` survives the spread, the synthesized position never does.
  */
  lemma ListIdTruthy(items: seq<Record>, i: nat)
    requires i < |items|
    ensures !Falsy(NormalizeList(items)[i]["id"]) <==> "id" !in items[i] || !Falsy(items[i]["id"])
  {
  }

  /**
    A map record's id is truthy exactly when the item's own `id` is truthy, or the item
    has none and its key is not the empty string.
  */
  lemma MapIdTruthy(entries: seq<(string, Record)>, i: nat)
    requires i < |entries|
    ensures !Falsy(NormalizeMap(entries)[i]["id"])
      <==> if "id" in entries[i].1 then !Falsy(entries[i].1["id"]) else entries[i].0 != ""
  {
  }

  /** Without its `id`, each normalized record is exactly the item it came from, when the item had no `id`. */
  lemma ListRecordRestoresItem(items: seq<Record>, i: nat)
    requires i < |items| && "id" !in items[i]
    ensures NormalizeList(items)[i] - {"id"} == items[i]
  {
    var r := NormalizeList(items)[i];
    assert (r - {"id"}).Keys == items[i].Keys;
  }

  /** A list item that already has an `id` comes through the normalization unchanged. */
  lemma ListRecordKeepsIdentifiedItem(items: seq<Record>, i: nat)
    requires i < |items| && "id" in items[i]
    ensures NormalizeList(items)[i] == items[i]
  {
  }
}

=== FILE: results.dfy ===
/** Outcome types shared by the modules of the data-table model. */
module Results {

  /** A value that may be missing. */
  datatype Option<+T> = None | Some(value: T)

  /** The result of an operation that either succeeds with a value or fails with an error. */
  datatype Result<+T, +E> = Ok(value: T) | Err(error: E)
}

=== FILE: table.dfy ===
/**
  The table description `createHeader`, `appendCell` and `fillTableBody` build: a header
  row of headings and one body row per record, each cell holding text or markup.
*/
module Table {
  import opened JsValue
  import opened Config
  import opened Delete
  import Decimal

  const NumberHeading := "№"
  const ActionsHeading := "Дії"
  const DeleteLabel := "Видалити"

  /**
    A body cell. `Cell` is what `appendCell` produces: `isHTML` cells are assigned to
    `innerHTML`, the others to `textContent`. `DeleteButton` is the trailing action
    cell with the request its click handler makes.
  */
  datatype Cell =
    | Cell(content: string, isHTML: bool)
    | DeleteButton(caption: string, request: DeleteRequest)

  datatype Row = Row(cells: seq<Cell>)

  datatype TableModel = TableModel(header: seq<string>, body: seq<Row>)

  /** The header row of `createHeader`: the number heading, one heading per column, the actions heading. */
  function Header(columns: seq<Column>): (h: seq<string>)
    ensures |h| == |columns| + 2
    ensures h[0] == NumberHeading && h[|h| - 1] == ActionsHeading
    ensures forall i :: 0 <= i < |columns| ==> h[i + 1] == columns[i].title
  {
    [NumberHeading] + seq(|columns|, i requires 0 <= i < |columns| => columns[i].title) + [ActionsHeading]
  }

  /**
    The cell one column shows for one record. A derived column's result is markup; a
    field column's value is text, and a falsy value shows as the empty string.
  */
  function ColumnCell(column: Column, item: Record): (c: Cell)
    ensures c.Cell?
    ensures c.isHTML <==> column.value.Derived?
    ensures column.value.Derived? ==> c.content == column.value.render(item)
    ensures column.value.Field? && Falsy(Get(item, column.value.name)) ==> c.content == ""
    ensures column.value.Field? && !Falsy(Get(item, column.value.name)) ==>
      c.content == ToText(item[column.value.name])
  {
    match column.value
    case Derived(render, _) => Cell(render(item), true)
    case Field(name) => Cell(ToText(Or(Get(item, name), Str(""))), false)
  }

  /** The body row for the record at 0-based position `index`. */
  function BuildRow(apiUrl: string, columns: seq<Column>, index: nat, item: Record): (row: Row)
    ensures |row.cells| == |columns| + 2
    ensures row.cells[0] == Cell(Decimal.NatToString(index + 1), false)
    ensures forall j :: 0 <= j < |columns| ==> row.cells[j + 1] == ColumnCell(columns[j], item)
    ensures row.cells[|columns| + 1] == DeleteButton(DeleteLabel, DeleteTarget(apiUrl, Get(item, "id")))
  {
    Row([Cell(Decimal.NatToString(index + 1), false)]
        + seq(|columns|, j requires 0 <= j < |columns| => ColumnCell(columns[j], item))
        + [DeleteButton(DeleteLabel, DeleteTarget(apiUrl, Get(item, "id")))])
  }

  /**
    `fillTableBody`: the body is emptied first and then holds one row per record, so the
    result depends only on the configuration and the records.
  */
  function FillTableBody(config: TableConfig, data: seq<Record>): (body: seq<Row>)
    ensures |body| == |data|
    ensures forall i :: 0 <= i < |data| ==> body[i] == BuildRow(config.apiUrl, config.columns, i, data[i])
    ensures forall i :: 0 <= i < |data| ==>
      |body[i].cells| == |config.columns| + 2 && body[i].cells[0] == Cell(Decimal.NatToString(i + 1), false)
  {
    seq(|data|, i requires 0 <= i < |data| => BuildRow(config.apiUrl, config.columns, i, data[i]))
  }

  /** Every body row is as wide as the header and numbered by its 1-based position. */
  lemma RowsMatchHeader(config: TableConfig, data: seq<Record>, i: nat)
    requires i < |data|
    ensures |FillTableBody(config, data)[i].cells| == |Header(config.columns)|
    ensures FillTableBody(config, data)[i].cells[0].content == Decimal.NatToString(i + 1)
    ensures Decimal.ParseNat(FillTableBody(config, data)[i].cells[0].content) == i + 1
  {
    Decimal.ParseNatToString(i + 1);
  }

  /** Text in a field column never becomes markup, and a non-empty string value shows verbatim. */
  lemma FieldCellShowsString(column: Column, item: Record, s: string)
    requires column.value.Field? && Get(item, column.value.name) == Str(s)
    ensures ColumnCell(column, item) == Cell(s, false)
  {
  }
}

=== FILE: validation.dfy ===
/**
  The submit handler of the add form: every input and select is checked in document
  order, flagged when required and empty, and otherwise copied into the new item.
*/
module Validation {
  import opened Form

  /** A rendered field at submit time: its `name`, `required` flag and current `value`. */
  datatype Control = Control(name: string, required: bool, value: string)

  /** The fields of the form with the values they hold when submitted. */
  function Controls(fields: seq<FormField>, values: seq<string>): (cs: seq<Control>)
    requires |values| == |fields|
    ensures |cs| == |fields|
    ensures forall k :: 0 <= k < |fields| ==>
      cs[k].name == fields[k].name && cs[k].required == fields[k].required && cs[k].value == values[k]
  {
    seq(|fields|, k requires 0 <= k < |fields| => Control(fields[k].name, fields[k].required, values[k]))
  }

  /** A control fails when it is required and its value is empty; the value is not trimmed, so blanks count as filled. */
  predicate Fails(c: Control) {
    c.required && c.value == ""
  }

  /** Control `k` passes and no later passing control has its name, so its value is the one kept. */
  predicate IsLastStored(controls: seq<Control>, k: nat)
    requires k < |controls|
  {
    !Fails(controls[k])
    && forall j :: k < j < |controls| && !Fails(controls[j]) ==> controls[j].name != controls[k].name
  }

  /** The per-field error flags, the overall verdict and the collected item. */
  datatype Verdict = Verdict(errors: seq<bool>, isValid: bool, item: map<string, string>)

  /** One flag per control, set exactly on the failing ones. */
  ghost predicate Flags(controls: seq<Control>, errors: seq<bool>) {
    |errors| == |controls| && forall k :: 0 <= k < |controls| ==> (errors[k] <==> Fails(controls[k]))
  }

  /** Some passing control has the name `n`. */
  ghost predicate Passed(controls: seq<Control>, n: string) {
    exists k :: 0 <= k < |controls| && !Fails(controls[k]) && controls[k].name == n
  }

  /** The item holds exactly the names of the passing controls ... */
  ghost predicate Keys(controls: seq<Control>, item: map<string, string>) {
    forall n :: n in item <==> Passed(controls, n)
  }

  /** ... each with the value of the last passing control of that name. */
  ghost predicate Values(controls: seq<Control>, item: map<string, string>) {
    forall k :: 0 <= k < |controls| && IsLastStored(controls, k) ==> controls[k].name in item && item[controls[k].name] == controls[k].value
  }

  /** `v` is the verdict on `controls`; it is valid exactly when no control fails. */
  ghost predicate Judges(controls: seq<Control>, v: Verdict) {
    && Flags(controls, v.errors)
    && (v.isValid <==> forall k :: 0 <= k < |controls| ==> !Fails(controls[k]))
    && Keys(controls, v.item)
    && Values(controls, v.item)
  }

  /** One control's turn of the loop: flag it, or clear its flag and store its value. */
  function Step(v: Verdict, c: Control): (next: Verdict)
    ensures next.errors == v.errors + [Fails(c)]
    ensures next.isValid <==> v.isValid && !Fails(c)
    ensures Fails(c) ==> next.item == v.item
    ensures !Fails(c) ==> next.item.Keys == v.item.Keys + {c.name} && next.item[c.name] == c.value
    ensures forall n :: n in v.item && n != c.name ==> n in next.item && next.item[n] == v.item[n]
  {
    if Fails(c) then Verdict(v.errors + [true], false, v.item)
    else Verdict(v.errors + [false], v.isValid, v.item[c.name := c.value])
  }

  lemma StepKeys(controls: seq<Control>, item: map<string, string>)
    requires |controls| > 0
    requires Keys(controls[..|controls| - 1], item)
    ensures Keys(controls, Step(Verdict([], true, item), controls[|controls| - 1]).item)
  {
    var prefix := controls[..|controls| - 1];
    var c := controls[|controls| - 1];
    var next := Step(Verdict([], true, item), c).item;
    forall n
      ensures n in next <==> Passed(controls, n)
    {
      if n in next && !(!Fails(c) && n == c.name) {
        assert Passed(prefix, n);
        var k :| 0 <= k < |prefix| && !Fails(prefix[k]) && prefix[k].name == n;
        assert controls[k] == prefix[k];
      }
      if Passed(controls, n) {
        var k :| 0 <= k < |controls| && !Fails(controls[k]) && controls[k].name == n;
        if k < |prefix| {
          assert prefix[k] == controls[k];
          assert Passed(prefix, n);
        }
      }
    }
  }

  lemma StepValues(controls: seq<Control>, item: map<string, string>)
    requires |controls| > 0
    requires Values(controls[..|controls| - 1], item)
    ensures Values(controls, Step(Verdict([], true, item), controls[|controls| - 1]).item)
  {
    var prefix := controls[..|controls| - 1];
    var c := controls[|controls| - 1];
    var next := Step(Verdict([], true, item), c).item;
    forall k | 0 <= k < |controls| && IsLastStored(controls, k)
      ensures controls[k].name in next && next[controls[k].name] == controls[k].value
    {
      if k < |prefix| {
        assert prefix[k] == controls[k];
        assert IsLastStored(prefix, k) by {
          forall j | k < j < |prefix| && !Fails(prefix[j])
            ensures prefix[j].name != prefix[k].name
          {
            assert prefix[j] == controls[j];
          }
        }
      }
    }
  }

  lemma StepFlags(controls: seq<Control>, v: Verdict)
    requires |controls| > 0
    requires Flags(controls[..|controls| - 1], v.errors)
    requires v.isValid <==> forall k :: 0 <= k < |controls| - 1 ==> !Fails(controls[k])
    ensures var next := Step(v, controls[|controls| - 1]);
      Flags(controls, next.errors) && (next.isValid <==> forall k :: 0 <= k < |controls| ==> !Fails(controls[k]))
  {
    var prefix := controls[..|controls| - 1];
    assert forall k :: 0 <= k < |prefix| ==> prefix[k] == controls[k];
  }

  lemma StepJudges(controls: seq<Control>, v: Verdict)
    requires |controls| > 0
    requires Judges(controls[..|controls| - 1], v)
    ensures Judges(controls, Step(v, controls[|controls| - 1]))
  {
    var prefix := controls[..|controls| - 1];
    assert v.isValid <==> forall k :: 0 <= k < |controls| - 1 ==> !Fails(controls[k]) by {
      assert forall k :: 0 <= k < |prefix| ==> prefix[k] == controls[k];
    }
    StepFlags(controls, v);
    var c := controls[|controls| - 1];
    assert Step(v, c).item == Step(Verdict([], true, v.item), c).item;
    StepKeys(controls, v.item);
    StepValues(controls, v.item);
  }

  /** The `forEach` over the form's controls, as a left fold from the all-valid, empty verdict. */
  function Validate(controls: seq<Control>): (v: Verdict)
    ensures Judges(controls, v)
    decreases |controls|
  {
    if |controls| == 0 then Verdict([], true, map[])
    else
      var v := Validate(controls[..|controls| - 1]);
      StepJudges(controls, v);
      Step(v, controls[|controls| - 1])
  }

  /** With distinct names, every passing field's value is stored under its name. */
  lemma DistinctNamesStoreEveryPassingField(controls: seq<Control>)
    requires forall a, b :: 0 <= a < b < |controls| ==> controls[a].name != controls[b].name
    ensures forall k :: 0 <= k < |controls| && !Fails(controls[k]) ==>
      Validate(controls).item[controls[k].name] == controls[k].value
  {
    forall k | 0 <= k < |controls| && !Fails(controls[k])
      ensures IsLastStored(controls, k)
    {
    }
  }

  /** A failing field whose name no passing field shares is absent from the item. */
  lemma FailingFieldIsAbsent(controls: seq<Control>, k: nat)
    requires k < |controls| && Fails(controls[k])
    requires forall j :: 0 <= j < |controls| && !Fails(controls[j]) ==> controls[j].name != controls[k].name
    ensures controls[k].name !in Validate(controls).item
  {
  }
}

=== FILE: widget.dfy ===
/**
  The `DataTable` instance: the container it owns, the add modal, and the reload that
  follows every successful create or delete. Network replies come in as parameters.
*/
module Widget {
  import opened Results
  import opened JsValue
  import opened Config
  import opened Normalize
  import opened Delete
  import opened Table
  import opened Form
  import opened Validation
  import opened Create
  import Decimal

  const AddLabel := "Додати"

  /** What `DataTable` puts in its container: the add button, then the table. */
  datatype Container = Container(addCaption: string, table: TableModel)

  /** The page as far as one instance is concerned: its container and whether its add modal is open. */
  datatype Page = Page(container: Container, modalOpen: bool)

  /** How the server answered a POST or DELETE. */
  datatype Reply =
    | Refused(text: string)   // `response.ok` is false
    | Accepted                // ok, and the body decodes as JSON
    | AcceptedNotJson         // ok, but `response.json()` rejects

  /**
    `DataTable(config)` once its load has settled. The container is emptied first, so
    nothing of an earlier rendering remains; a failed load leaves the body empty.
  */
  function DataTable(config: TableConfig, response: Response): (c: Container)
    ensures c.addCaption == AddLabel
    ensures c.table.header == Header(config.columns)
    ensures |c.table.header| == |config.columns| + 2
    ensures FetchData(response).Err? ==> c.table.body == []
    ensures FetchData(response).Ok? ==> |c.table.body| == |FetchData(response).value|
    ensures FetchData(response).Ok? ==> forall i :: 0 <= i < |c.table.body| ==>
      c.table.body[i] == BuildRow(config.apiUrl, config.columns, i, FetchData(response).value[i])
  {
    var body := match FetchData(response)
      case Ok(records) => FillTableBody(config, records)
      case Err(_) => [];
    Container(AddLabel, TableModel(Header(config.columns), body))
  }

  /** Clicking "Додати": the modal opens unless a column without `input` makes building it throw. */
  function ClickAdd(page: Page, config: TableConfig): (p: Page)
    ensures p.container == page.container
    ensures p.modalOpen <==> page.modalOpen || GenerateFields(config.columns).Ok?
  {
    if GenerateFields(config.columns).Ok? then page.(modalOpen := true) else page
  }

  /** A click on the modal's backdrop removes it, discarding what was entered. */
  function ClickBackdrop(page: Page): (p: Page)
    ensures p.container == page.container && !p.modalOpen
  {
    page.(modalOpen := false)
  }

  /**
    A click on a row's delete button, once the DELETE and the reload have settled: the
    table is rebuilt only after an accepted DELETE; otherwise the page stays as it was.
  */
  function ClickDelete(page: Page, config: TableConfig, record: Record, reply: Reply, reload: Response): (p: Page)
    ensures p.modalOpen == page.modalOpen
    ensures Falsy(Get(record, "id")) ==> p == page
    ensures !reply.Accepted? ==> p == page
    ensures !Falsy(Get(record, "id")) && reply.Accepted? ==> p.container == DataTable(config, reload)
  {
    match DeleteTarget(config.apiUrl, Get(record, "id"))
    case NoRequest => page
    case DeleteAt(_) => if reply.Accepted? then page.(container := DataTable(config, reload)) else page
  }

  /**
    Submitting the open modal, once the POST and the reload have settled: an invalid
    form sends nothing and stays open; an accepted create closes the modal and rebuilds
    the table; a refused one leaves everything as it was.
  */
  function SubmitForm(page: Page, config: TableConfig, controls: seq<Control>, parseFloat: string -> string,
                      reply: Reply, reload: Response): (p: Page)
    requires page.modalOpen
    ensures !Validate(controls).isValid ==> p == page
    ensures !reply.Accepted? ==> p == page
    ensures Validate(controls).isValid && reply.Accepted? ==> p == Page(DataTable(config, reload), false)
  {
    match Submit(config.apiUrl, controls, parseFloat)
    case Blocked(_) => page
    case Posted(_, _, _) => if reply.Accepted? then Page(DataTable(config, reload), false) else page
  }

  /** Two renderings of the same configuration and data are the same, whatever the page held before. */
  lemma RerenderReplacesPage(p1: Page, p2: Page, config: TableConfig, record: Record, reload: Response)
    requires !Falsy(Get(record, "id"))
    ensures ClickDelete(p1, config, record, Accepted, reload).container
         == ClickDelete(p2, config, record, Accepted, reload).container
         == DataTable(config, reload)
  {
  }

  /** The delete button of a list item without an `id` addresses its 1-based position. */
  lemma SynthesizedIdIsDeleteTarget(config: TableConfig, items: seq<Record>, i: nat)
    requires i < |items| && "id" !in items[i]
    ensures var c := DataTable(config, Decoded(ListData(items)));
      c.table.body[i].cells[|config.columns| + 1]
        == DeleteButton(DeleteLabel, DeleteAt(config.apiUrl + "/" + Decimal.NatToString(i + 1)))
  {
    var records := NormalizeList(items);
    assert Get(records[i], "id") == Str(Decimal.NatToString(i + 1));
  }

  /** The delete button of a map entry without an `id` addresses its key, when the key is not empty. */
  lemma MapKeyIsDeleteTarget(config: TableConfig, entries: seq<(string, Record)>, i: nat)
    requires i < |entries| && "id" !in entries[i].1
    ensures var c := DataTable(config, Decoded(MapData(entries)));
      c.table.body[i].cells[|config.columns| + 1]
        == DeleteButton(DeleteLabel, if entries[i].0 == "" then NoRequest else DeleteAt(config.apiUrl + "/" + entries[i].0))
  {
    var records := NormalizeMap(entries);
    assert Get(records[i], "id") == Str(entries[i].0);
  }

  /** One text column and one record `{ name: "Ann" }`: "№, Name, Дії" over "1, Ann, Видалити". */
  lemma OneRowScenario(apiUrl: string)
    ensures var config := TableConfig("#table", apiUrl,
        [Column("Name", Field("name"), Single(InputDef(Str("text"), Undefined, Undefined, Undefined, None)))]);
      DataTable(config, Decoded(ListData([map["name" := Str("Ann")]])))
      == Container(AddLabel, TableModel(["№", "Name", "Дії"],
           [Row([Cell("1", false), Cell("Ann", false), DeleteButton("Видалити", DeleteAt(apiUrl + "/1"))])]))
  {
    var config := TableConfig("#table", apiUrl,
        [Column("Name", Field("name"), Single(InputDef(Str("text"), Undefined, Undefined, Undefined, None)))]);
    var records := NormalizeList([map["name" := Str("Ann")]]);
    assert Decimal.NatToString(1) == "1";
    assert Get(records[0], "id") == Str("1");
    assert Header(config.columns) == ["№", "Name", "Дії"];
    assert ColumnCell(config.columns[0], records[0]) == Cell("Ann", false);
    assert apiUrl + "/" + "1" == apiUrl + "/1";
    assert DeleteTarget(apiUrl, Get(records[0], "id")) == DeleteAt(apiUrl + "/1");
    var row := BuildRow(apiUrl, config.columns, 0, records[0]);
    assert |row.cells| == 3;
    assert row.cells == [Cell("1", false), Cell("Ann", false), DeleteButton("Видалити", DeleteAt(apiUrl + "/1"))];
    assert FillTableBody(config, records) == [row];
  }

  /** A derived display value: the price, a space, and the currency. */
  function PriceWithCurrency(product: Record): string {
    ToText(Get(product, "price")) + " " + ToText(Get(product, "currency"))
  }

  /** A price column asking for an amount and a currency. */
  function PriceColumn(): Column {
    Column("Ціна", Derived(PriceWithCurrency, "price with currency"),
      Multi([InputDef(Str("number"), Str("price"), Str("Ціна"), Undefined, None),
             InputDef(Str("select"), Str("currency"), Str("Валюта"), Bool(false), Some(["$", "€", "₴"]))]))
  }

  lemma PriceColumnFields()
    ensures GenerateFields([PriceColumn()])
         == Ok([FormField(Input("number"), "price", "Ціна", true),
                FormField(Select(["$", "€", "₴"]), "currency", "Валюта", false)])
  {
    var column := PriceColumn();
    assert [column][1..] == [];
    assert GenerateFields([column][1..]) == Ok([]);
    var fs := ColumnFields(column);
    assert |fs| == 2;
    var ds := Descriptors(column.input);
    assert fs[0] == Describe(column, ds[0]) == FormField(Input("number"), "price", "Ціна", true);
    assert fs[1] == Describe(column, ds[1]) == FormField(Select(["$", "€", "₴"]), "currency", "Валюта", false);
    assert GenerateFields([column]) == Ok(fs + []);
    assert fs + [] == fs;
    assert fs == [FormField(Input("number"), "price", "Ціна", true),
                  FormField(Select(["$", "€", "₴"]), "currency", "Валюта", false)];
  }

  lemma PriceCurrencyVerdict()
    ensures Validate([Control("price", true, "12.5"), Control("currency", false, "$")])
         == Verdict([false, false], true, map["price" := "12.5", "currency" := "$"])
  {
    var controls := [Control("price", true, "12.5"), Control("currency", false, "$")];
    var v := Validate(controls);
    assert Passed(controls, "price") by { assert controls[0].name == "price"; }
    assert Passed(controls, "currency") by { assert controls[1].name == "currency"; }
    assert v.item.Keys == {"price", "currency"};
    assert IsLastStored(controls, 0) && IsLastStored(controls, 1);
  }

  lemma PriceCurrencyBody(parseFloat: string -> string)
    requires !Falsy(Num(parseFloat("12.5")))
    ensures PreparePrice(AsRecord(map["price" := "12.5", "currency" := "$"]), parseFloat)
         == map["price" := Num(parseFloat("12.5")), "currency" := Str("$")]
  {
    var body := AsRecord(map["price" := "12.5", "currency" := "$"]);
    assert body == map["price" := Str("12.5"), "currency" := Str("$")];
  }

  /** Submitting that column's two fields filled in posts one body with both, the price as a number. */
  lemma PriceCurrencyScenario(apiUrl: string, parseFloat: string -> string)
    requires !Falsy(Num(parseFloat("12.5")))
    ensures GenerateFields([PriceColumn()]).Ok?
    ensures Submit(apiUrl, Controls(GenerateFields([PriceColumn()]).value, ["12.5", "$"]), parseFloat)
         == Posted([false, false], apiUrl, map["price" := Num(parseFloat("12.5")), "currency" := Str("$")])
  {
    PriceColumnFields();
    var controls := Controls(GenerateFields([PriceColumn()]).value, ["12.5", "$"]);
    assert controls == [Control("price", true, "12.5"), Control("currency", false, "$")];
    PriceCurrencyVerdict();
    PriceCurrencyBody(parseFloat);
  }
}
